=== FILE: README.md ===
# Gridsome `App`: a verified model of the bootstrap orchestrator

This project models `gridsome/lib/app/App.js`, the class that boots a Gridsome
site. `bootstrap(phase)` walks a fixed list of four phases in order: Initialize,
Run plugins, Create GraphQL schema, Generate code. It runs and awaits each phase
whose index is `<= phase`, then calls the `afterBootstrap` plugin hook. The
phases fill in the App's fields:

- `init` creates the store, the image queue, the plugin runner and the code
  generator. It subscribes the `broadcast` and `generateRoutes` handlers, then
  calls the `init` hook.
- `createSchema` merges the results of the `createSchemaQueries` hook with
  `Object.assign` and builds the schema from them.
- `generateFiles` builds the route data, then a vue-router whose table has one
  route per page, then regenerates every file.

Beside the phases, `graphql` sends a query to the GraphQL executor according to
its kind. `queryRouteData` runs the page query of a resolved route. `broadcast`
writes one message to every live client and, on hot reload, regenerates
`now.js`.

Every collaborator is opaque. Constructing the store, the image queue, the
plugin runner or the code generator, subscribing to a plugin event, calling a
plugin hook, running the plugins, building the schema or the route data,
constructing the vue-router and regenerating files each append a `Call` to the
App's `trace`. Where such a call settles to something the App uses (a hook, the
plugin run, the route data, a regeneration), that value comes from an `Env`
value passed in by the caller; the constructions, subscriptions and the schema
and router builds always succeed. The GraphQL executor is not called at all: it
is modelled by the `Request` the App hands to it (which executor, the schema,
the context, the variables and the query). So a run of the App is
described by three things: the fields it leaves, the calls it makes in order,
and whether it resolves or rejects.

Modules:

- `Types` holds the values: handles, pages, routes, query arguments, calls,
  outcomes and the `Env`.
- `QueryMerge` holds `Object.assign(...queries)` and what it computes.
- `RouteTable` holds the `pages.map` projection into vue-router records.
- `RouteQuery` holds `graphql` and `queryRouteData` as pure functions of a
  schema and a `{ store, config }` context. The App's own `Graphql` and
  `QueryRouteData` call them with `this.schema` and the App's store and config.
- `Phases` holds the state-transition specification: the phase list, the
  phases a target phase selects, what each phase does (`Step`), the fail-fast
  walk (`RunPhases`), `BootstrapSpec`, and the lemmas that state what
  bootstrapping promises.
- `Application` holds `class App`. Its fields are those of the source. Its
  methods assign them in place and append to the trace. Each phase method and
  `Bootstrap` is proved equal to its specification function in `Phases`.
  `Broadcast` and the broadcast branch of `OnPluginEvent` are specified
  directly: each client's log gains exactly the one serialized message.

How phases are observed: `Started(calls)` reads back which phases a call
sequence entered, and `Attempted(ps)` is an independent reference for a
fail-fast walk (every phase up to and including the first rejection). The
lemmas connect the two.

## Model

| member | source | states |
|---|---|---|
| QueryMerge.Assign | gridsome/lib/app/App.js:86 | `Object.assign` keeps every key of the target and of each source, and the last source's keys carry that source's values |
| QueryMerge.MergeQueries | gridsome/lib/app/App.js:86 | no hook results give `{}`; every key of every result is in the merge; the last result's keys carry its values |
| QueryMerge.AssignSnoc | gridsome/lib/app/App.js:86 | `Object.assign` with one more source is the earlier result overlaid by that source's keys |
| QueryMerge.MergeQueriesSnoc | gridsome/lib/app/App.js:86 | no hook results merge to `{}`; one more result is laid over the merge of the earlier ones |
| QueryMerge.MergeQueriesUnion | gridsome/lib/app/App.js:81-87 | a key is in the merged `queries` iff some hook result has it, and it carries the value of the last result that has it |
| QueryMerge.MergeQueriesLaterOverrides | gridsome/lib/app/App.js:86 | when two plugins supply the same key, the later plugin's field wins |
| RouteTable.RoutePath | gridsome/lib/app/App.js:98 | a truthy (non-empty) `route` is the path; otherwise the path is the page's own path, so it is empty only when the page's path is |
| RouteTable.Routes | gridsome/lib/app/App.js:97-100 | one route per page, in page order; each resolves to its page; its path is `page.route` when that is a non-empty string, `page.path` otherwise |
| RouteTable.RouterFor | gridsome/lib/app/App.js:93-101 | the router is in history mode under `/`, has no fallback, and its routes are exactly the page projection, one per page |
| RouteTable.RoutesAppend | gridsome/lib/app/App.js:97-100 | the projection works page by page: the routes of joined page lists are the joined route lists |
| RouteTable.RoutesKeepPages | gridsome/lib/app/App.js:97-100 | the pages can be read back, in order, from the components of the route table |
| RouteQuery.Graphql | gridsome/lib/app/App.js:114-119 | a parsed document goes to `execute` and anything else to `graphql`; schema, context and variables are passed on unchanged, and so is the query argument |
| RouteQuery.Variables | gridsome/lib/app/App.js:127 | the variables are the route params plus `path`; `path` is the route's path even when a param is named `path`; every other param keeps its value |
| RouteQuery.QueryTruthy | gridsome/lib/app/App.js:129 | a missing query and the empty query text are falsy; a parsed document and any non-empty query text are truthy |
| RouteQuery.QueryRouteData | gridsome/lib/app/App.js:121-132 | the result is `{ data: {} }` iff the route matched nothing or the first matched page's query is falsy; otherwise it is the executor request for that query with the route's variables and the given schema and context |
| RouteQuery.QueryRouteDataDispatch | gridsome/lib/app/App.js:124-131 | a matched page with a non-empty query reaches the executor, through `execute` exactly when the query is a parsed document, with `path` bound to the route's path |
| RouteQuery.QueryRouteDataIgnoresArgument | gridsome/lib/app/App.js:121 | the `docOrQuery` argument of `queryRouteData` makes no difference to its result |
| Phases.SelectBelowPrefix | gridsome/lib/app/App.js:39-40 | the phases selected among the first `n` are a prefix of the phase list, cut at `phase + 1` |
| Phases.SelectedPhases | gridsome/lib/app/App.js:29-46 | `bootstrap(phase)` selects exactly the phases of index `<= phase`, each once and in ascending order; `phase >= 3` selects all four and a negative `phase` none |
| Phases.RunPhases | gridsome/lib/app/App.js:39-46 | a walk over no phases cannot reject; a walk that resolves has made at least one collaborator call per phase |
| Phases.Finish | gridsome/lib/app/App.js:48 | the final hook changes no field and adds at most the one `afterBootstrap` call after the loop's calls; a rejected loop is never recovered, and a resolved result has called `afterBootstrap` last |
| Phases.BootstrapSpec | gridsome/lib/app/App.js:26-53 | a negative `phase` changes no field and makes at most one call; a resolved bootstrap ends with the `afterBootstrap` call |
| Phases.StepFacts | gridsome/lib/app/App.js:59-104 | each phase enters itself and no other phase, never calls `afterBootstrap`, and settles as its collaborator does |
| Phases.StepFields | gridsome/lib/app/App.js:59-104 | `init` sets the store, queue, plugin runner and generator; `createSchema` sets the schema from the merged hook results only when the hook resolves; `generateFiles` sets the route data and router; every other field is unchanged |
| Phases.StepKeepsInitialized | gridsome/lib/app/App.js:59-63 | once `init` has run, every later phase leaves its four fields set |
| Phases.AttemptedPrefix | gridsome/lib/app/App.js:39-46 | a fail-fast walk enters a prefix of the phases: all of them when all resolve, otherwise up to and including the first rejection, after resolved predecessors |
| Phases.RunPhasesCalls | gridsome/lib/app/App.js:39-46 | the phase loop enters exactly the attempted phases in order, never calls `afterBootstrap`, resolves iff every phase resolves, and otherwise rejects with the first rejection |
| Phases.RunPhasesFields | gridsome/lib/app/App.js:39-46 | after the phase loop, each field is set iff the phase that sets it was entered (the schema only if its hook resolved), and is unchanged otherwise |
| Phases.RunPhasesPrefix | gridsome/lib/app/App.js:39-46 | running more phases only appends calls to those of running fewer |
| Phases.RejectionStops | gridsome/lib/app/App.js:39-46 | once a selected phase has rejected, the later phases add no call and change no field |
| Phases.FinishFacts | gridsome/lib/app/App.js:39-48 | the loop plus the final hook calls `afterBootstrap` once when every phase resolved and the plugin runner exists, and never otherwise; it settles with the first rejection, the missing-runner TypeError, or the hook's result |
| Phases.BootstrapRunsSelectedPhases | gridsome/lib/app/App.js:26-53 | `bootstrap(phase)` enters the selected phases in ascending order until one rejects; `afterBootstrap` is called exactly once when all resolve (and `phase >= 0` or the runner already exists), never otherwise; the outcome is the first rejection, the TypeError, or `afterBootstrap`'s result |
| Phases.BootstrapBuildsFields | gridsome/lib/app/App.js:59-103 | a bootstrap whose selected phases all resolve leaves the App initialized; the schema is built from the merged hook results iff `phase >= 2`; the router is built from the pages iff `phase >= 3`; below those, the fields keep their values |
| Phases.BootstrapBeginsWithInit | gridsome/lib/app/App.js:59-73 | every bootstrap with `phase >= 0` begins with exactly `init`'s calls: four constructions, the two subscriptions, the `init` hook |
| Phases.BootstrapSubscribesFirst | gridsome/lib/app/App.js:65-73 | in every bootstrap with `phase >= 0`, the `broadcast` and `generateRoutes` subscriptions come fifth and sixth, the `init` hook seventh, and no `plugins.run()` comes before them |
| Application.App.constructor | gridsome/lib/app/App.js:16-24 | a new App has no clients, no phase field set and an empty trace |
| Application.App.Graphql | gridsome/lib/app/App.js:114-119 | the query runs against `this.schema` with context `{ store: this.store, config: this.config }` and the given variables, through `execute` iff it is a parsed document |
| Application.App.QueryRouteData | gridsome/lib/app/App.js:121-132 | `{ data: {} }` iff the route matched nothing or the page query is falsy; otherwise exactly this App's `graphql` of the page query with the route's variables, so against this App's schema, store and config |
| Application.App.Bootstrap | gridsome/lib/app/App.js:26-53 | the fields, calls and outcome of `bootstrap(phase)` are those of `BootstrapSpec`, which the lemmas above characterize |
| Application.App.RunSelectedPhases | gridsome/lib/app/App.js:39-46 | the phase loop, which runs the phase at index `i` only when `i <= phase`, leaves the fields, calls and outcome of the fail-fast walk over the selected phases |
| Application.App.RunNext | gridsome/lib/app/App.js:42 | awaiting one phase extends the fail-fast walk by exactly that phase (its fields, calls and outcome) and leaves the App initialized |
| Application.App.RunPhase | gridsome/lib/app/App.js:42 | `current.run(this)` does to the fields and trace what the phase's `Step` says |
| Application.App.InvokeHook | gridsome/lib/app/App.js:73 | calling a hook records exactly that hook and settles as the plugin runner does |
| Application.App.Init | gridsome/lib/app/App.js:59-74 | `init` leaves the App initialized, with `InitStep`'s fields, calls and outcome |
| Application.App.RunPlugins | gridsome/lib/app/App.js:76-78 | `runPlugins` records one `plugins.run()` and settles as it does |
| Application.App.CreateSchema | gridsome/lib/app/App.js:80-88 | on a resolved hook the schema is built from the merged results; on a rejected hook the schema is unchanged and the rejection propagates |
| Application.App.GenerateFiles | gridsome/lib/app/App.js:90-104 | the router's routes are the page projection, and the last call is a full `generate()` with no target |
| Application.App.Broadcast | gridsome/lib/app/App.js:134-142 | every client receives exactly one more write, the serialized message, and no client is added or removed; with hot reload and a generator exactly one `generate('now.js')` follows; with hot reload before `init` has set the generator the writes still happen and the call rejects with the TypeError, generating nothing; without hot reload nothing is regenerated and the result is `undefined` |
| Application.App.OnPluginEvent | gridsome/lib/app/App.js:65-71 | a `broadcast` event broadcasts with hot reload and leaves the phase fields alone; a `generateRoutes` event runs `generateFiles` and leaves the clients alone |

## Left out

- Timing and logging (`hirestime`, `console.log`, `console.info`, and the phase titles, which only the log lines use) are not modelled. They are wall-clock I/O with no behaviour to state.
- `loadConfig`, `path.resolve` (`resolve`), `autoBind` and the `process.GRIDSOME` global are not modelled. `config` is a constructor argument.
- The internals of `BaseStore`, `ImageProcessQueue`, `PluginsRunner`, `CodeGenerator`, `createSchema`, `createRoutes`, vue-router and the GraphQL `execute`/`graphql` are not part of this model. Each construction or call of the first seven is recorded in the trace; the results the App uses (the `init`, `createSchemaQueries` and `afterBootstrap` hooks, `plugins.run()`, the route data and `generate`) are fields of `Env`. `execute`/`graphql` are not traced: `graphql` and `queryRouteData` return the request they would hand to the executor.
- `createSchema` and `createRoutes` are taken never to throw. Neither are `new BaseStore`, `new ImageProcessQueue`, `new PluginsRunner`, `new CodeGenerator` (lines 60-63), the two `plugins.on` subscriptions (lines 65-71) or `new Router` (line 93). So a throw part-way through `init`, which would leave some of its fields set and the others unset, is not modelled. `new Router` is recorded with its options rather than built.
- `JSON.stringify` is the function parameter `serialize`. A client's `write` appends to that client's log.
- Async scheduling is left out. Phases and hooks are sequential steps that resolve or reject. Overlapping broadcasts, and a `generateFiles` started by a `generateRoutes` event in the middle of a bootstrap, are not modelled.
- Application.App.Broadcast: the order in which clients are written is not modelled. The loop picks any unwritten client next; only the final logs are stated.
- How clients join or leave `clients` is not modelled, because that is done by the development server outside `App.js`.
- QueryMerge.MergeQueries: hook results are maps of field definitions. `Object.assign`'s handling of `undefined` or primitive results is not modelled. Nor is its in-place update of `queries[0]`, which another holder of that object would see.
- RouteQuery.QueryRouteData: every matched record resolves to a page that has a `pageQuery`. The TypeError raised for a component without one is not modelled.
- RouteQuery.Graphql: a query argument is either a parsed document or query text. `typeof null === 'object'` sends `null` to `execute`; `QueryArg` cannot express `null`, so that case is not modelled.
- Application.App.Graphql: the default `variables = {}` is not modelled; the argument is always given. The only caller in `App.js` (line 130) passes the route's variables.
- Application.App.Broadcast: the default `hotReload = true` is not modelled; `hotReload` is a plain `bool`. The `broadcast` event handler (line 66) relies on the default, and `OnPluginEvent` passes `true` for it.
- Application.App.Bootstrap: `phase` is an integer. Non-numeric values, which JavaScript compares by coercion, are not modelled.
- Application.App.Bootstrap: a phase's rejection at line 42 propagates unchanged; it is not wrapped with the phase's title.
- Application.App.Broadcast: the write at line 136 has no try/catch, so a failing client write would abort the loop. Writes are modelled as appends that cannot fail; no isolation of one client's failure is promised.
- Application.App.OnPluginEvent: each `generateRoutes` event calls `generateFiles` directly (line 70); regenerations are not coalesced.
- With a negative `phase` and no plugin runner yet, `this.plugins.callHook` throws. The model keeps this path rather than excluding it: `bootstrap` then rejects with `PluginsUnsetError`.
- Application.App.Broadcast: with hot reload and no generator yet, `this.generator.generate` throws synchronously after the writes. The model keeps this path and returns the throw as `Rejected(GeneratorUnsetError)`; a synchronous throw and a rejected promise are not told apart.

=== FILE: Application.dfy ===
/**
  The App class of gridsome/lib/app/App.js: the bootstrap orchestrator whose
  fields the phases set one after another, the plugin-event handlers it
  subscribes, the broadcast to live clients, and the App-bound query helpers.
  Each phase method and `Bootstrap` is proved to follow its state-transition
  function in module Phases; `Broadcast` is specified directly by what each
  client receives, and `Graphql` and `QueryRouteData` by the request they build.
 */
module Application {
  import opened Types
  import opened Phases
  import QueryMerge
  import RouteTable
  import RouteQuery

  /** The one artifact a hot-reload broadcast regenerates. */
  const LiveArtifact := "now.js"

  /** The rejection `this.generator.generate` raises while `this.generator` is still undefined. */
  const GeneratorUnsetError := "TypeError: Cannot read properties of undefined (reading 'generate')"

  /** Every client received exactly one more write, `payload`, and no client came or went. */
  predicate Delivered(before: map<string, seq<string>>, after: map<string, seq<string>>, payload: string) {
    after.Keys == before.Keys && forall c :: c in before ==> after[c] == before[c] + [payload]
  }

  class App {
    const context: string
    const config: Config
    /** The live clients by id, each with the log of what has been written to its channel. */
    var clients: map<string, seq<string>>
    var store: Option<Store>
    var queue: Option<Queue>
    var plugins: Option<PluginsRunner>
    var generator: Option<Generator>
    var schema: Option<Schema>
    var routerData: Option<RouterData>
    var router: Option<Router>
    /** The calls made into collaborators, oldest first. */
    var trace: seq<Call>

    function Snapshot(): State
      reads this
    {
      State(store, queue, plugins, generator, schema, routerData, router)
    }

    /** The context `graphql` hands to the executor: `{ store: this.store, config: this.config }`. */
    function Context(): QueryContext
      reads this
    {
      QueryContext(store, config)
    }

    /**
      `graphql(docOrQuery, variables)`: the query runs against this App's
      schema, with this App's store and config as its context.
     */
    function Graphql(docOrQuery: QueryArg, variables: map<string, string>): (r: RouteQuery.Request)
      reads this
      ensures r.schema == schema && r.context == QueryContext(store, config)
      ensures r.variables == variables
      ensures r.Execute? <==> docOrQuery.Parsed?
      ensures RouteQuery.Argument(r) == docOrQuery
    {
      RouteQuery.Graphql(schema, Context(), docOrQuery, variables)
    }

    /**
      `queryRouteData(route, docOrQuery)`: `{ data: {} }` when the route matched
      nothing or its page declares no query, otherwise the page query run
      through this App's `graphql` with the route's variables.
     */
    function QueryRouteData(route: ResolvedRoute, docOrQuery: QueryArg): (r: RouteQuery.QueryResult)
      reads this
      ensures r.EmptyData? <==> (|route.matched| == 0 || !RouteQuery.QueryTruthy(RouteQuery.FirstPageQuery(route)))
      ensures r.Pending? ==>
                |route.matched| > 0 && RouteQuery.QueryTruthy(RouteQuery.FirstPageQuery(route))
                && r.request == Graphql(RouteQuery.FirstPageQuery(route).value, RouteQuery.Variables(route))
      ensures r.Pending? ==> r.request.schema == schema && r.request.context == QueryContext(store, config)
    {
      RouteQuery.QueryRouteData(schema, Context(), route, docOrQuery)
    }

    /** `new App(context, options)`: no clients yet and none of the phase fields set. */
    constructor (context: string, config: Config)
      ensures this.context == context && this.config == config
      ensures clients == map[] && trace == []
      ensures Snapshot() == State(None, None, None, None, None, None, None)
    {
      this.context := context;
      this.config := config;
      clients := map[];
      store, queue, plugins, generator := None, None, None, None;
      schema, routerData, router := None, None, None;
      trace := [];
    }

    /** `bootstrap(phase)`: run the selected phases in order, awaiting each, then the `afterBootstrap` hook. */
    method Bootstrap(phase: int, env: Env) returns (r: Outcome)
      modifies this`store, this`queue, this`plugins, this`generator, this`schema, this`routerData, this`router, this`trace
      ensures Snapshot() == BootstrapSpec(phase, old(Snapshot()), env).state
      ensures trace == old(trace) + BootstrapSpec(phase, old(Snapshot()), env).calls
      ensures r == BootstrapSpec(phase, old(Snapshot()), env).outcome
    {
      ghost var ran := RunPhases(Selected(phase), Snapshot(), env);
      ghost var t0 := trace;
      r := RunSelectedPhases(phase, env);
      if r.Rejected? {
        return;
      }
      if plugins.None? {
        r := Rejected(PluginsUnsetError);
      } else {
        r := InvokeHook(AfterBootstrap, env.afterBootstrap);
        assert trace == t0 + (ran.calls + [CallHook(AfterBootstrap)]);
      }
    }

    /** The loop of `bootstrap(phase)`: each phase of index `<= phase` in turn, stopping at the first rejection. */
    method RunSelectedPhases(phase: int, env: Env) returns (o: Outcome)
      modifies this`store, this`queue, this`plugins, this`generator, this`schema, this`routerData, this`router, this`trace
      ensures Snapshot() == RunPhases(Selected(phase), old(Snapshot()), env).state
      ensures trace == old(trace) + RunPhases(Selected(phase), old(Snapshot()), env).calls
      ensures o == RunPhases(Selected(phase), old(Snapshot()), env).outcome
    {
      ghost var s0, t0 := Snapshot(), trace;
      ghost var done: seq<Phase> := [];
      o := Resolved;
      var i := 0;
      while i < |PhaseList|
        invariant 0 <= i <= |PhaseList| && done == SelectBelow(i, phase)
        invariant o == RunPhases(done, s0, env).outcome == Resolved
        invariant Snapshot() == RunPhases(done, s0, env).state && trace == t0 + RunPhases(done, s0, env).calls
        invariant 0 < i && 0 <= phase ==> Initialized(Snapshot())
      {
        if i <= phase {
          o := RunNext(PhaseList[i], done, s0, t0, env);
          done := done + [PhaseList[i]];
          assert done == SelectBelow(i + 1, phase) by { SelectBelowNext(i, phase); }
          if o.Rejected? {
            assert RunPhases(Selected(phase), s0, env) == RunPhases(done, s0, env) by { RejectionStops(i + 1, phase, s0, env); }
            return;
          }
        } else {
          assert done == SelectBelow(i + 1, phase) by { SelectBelowNext(i, phase); }
        }
        i := i + 1;
      }
    }

    /** One awaited phase of the loop of `bootstrap(phase)`: the walk so far, `done`, goes on with `p`. */
    method RunNext(p: Phase, ghost done: seq<Phase>, ghost s0: State, ghost t0: seq<Call>, env: Env) returns (o: Outcome)
      requires RunPhases(done, s0, env).outcome.Resolved?
      requires Snapshot() == RunPhases(done, s0, env).state
      requires trace == t0 + RunPhases(done, s0, env).calls
      requires p != Initialize ==> Initialized(Snapshot())
      modifies this`store, this`queue, this`plugins, this`generator, this`schema, this`routerData, this`router, this`trace
      ensures o == RunPhases(done + [p], s0, env).outcome
      ensures Snapshot() == RunPhases(done + [p], s0, env).state
      ensures trace == t0 + RunPhases(done + [p], s0, env).calls
      ensures Initialized(Snapshot())
    {
      ghost var ran := RunPhases(done, s0, env);
      ghost var step := Step(p, ran.state, env);
      assert RunPhases(done + [p], s0, env) == Effect(step.state, ran.calls + step.calls, step.outcome) by {
        RunPhasesSnoc(done, p, s0, env);
      }
      assert Initialized(step.state) by { StepKeepsInitialized(p, ran.state, env); }
      o := RunPhase(p, env);
    }

    /** `current.run(this)` for one phase; every phase but `Initialize` uses the fields `init` sets. */
    method RunPhase(p: Phase, env: Env) returns (o: Outcome)
      requires p != Initialize ==> Initialized(Snapshot())
      modifies this`store, this`queue, this`plugins, this`generator, this`schema, this`routerData, this`router, this`trace
      ensures Snapshot() == Step(p, old(Snapshot()), env).state
      ensures trace == old(trace) + Step(p, old(Snapshot()), env).calls
      ensures o == Step(p, old(Snapshot()), env).outcome
    {
      match p
      case Initialize => o := Init(env);
      case RunPlugins => o := this.RunPlugins(env);
      case CreateGraphQLSchema => o := CreateSchema(env);
      case GenerateCode => o := GenerateFiles(env);
    }

    /** `this.plugins.callHook(hook)`, settled as the plugin runner settles it. */
    method InvokeHook(hook: Hook, settled: Outcome) returns (o: Outcome)
      requires plugins.Some?
      modifies this`trace
      ensures trace == old(trace) + [CallHook(hook)]
      ensures o == settled
    {
      trace := trace + [CallHook(hook)];
      o := settled;
    }

    /**
      `init()`: construct the store, queue, plugin runner and generator,
      subscribe the `broadcast` and `generateRoutes` handlers, then call the
      `init` hook.
     */
    method Init(env: Env) returns (o: Outcome)
      modifies this`store, this`queue, this`plugins, this`generator, this`trace
      ensures Initialized(Snapshot())
      ensures Snapshot() == InitStep(old(Snapshot()), env).state
      ensures trace == old(trace) + InitStep(old(Snapshot()), env).calls
      ensures o == env.initHook
    {
      store := Some(BaseStore);
      trace := trace + [NewStore];
      queue := Some(ImageProcessQueue);
      trace := trace + [NewQueue];
      plugins := Some(PluginsRunner);
      trace := trace + [NewPluginsRunner];
      generator := Some(CodeGenerator);
      trace := trace + [NewCodeGenerator];
      trace := trace + [Subscribe(BroadcastEvent)];
      trace := trace + [Subscribe(GenerateRoutesEvent)];
      o := InvokeHook(InitHook, env.initHook);
    }

    /** `runPlugins()`: `this.plugins.run()`. */
    method RunPlugins(env: Env) returns (o: Outcome)
      requires Initialized(Snapshot())
      modifies this`trace
      ensures trace == old(trace) + RunPluginsStep(old(Snapshot()), env).calls
      ensures o == env.pluginsRun
    {
      trace := trace + [PluginsRun];
      o := env.pluginsRun;
    }

    /**
      `createSchema()`: collect the `createSchemaQueries` results, merge them
      with later keys winning, and build the schema from the merge.
     */
    method CreateSchema(env: Env) returns (o: Outcome)
      requires Initialized(Snapshot())
      modifies this`schema, this`trace
      ensures Snapshot() == CreateSchemaStep(old(Snapshot()), env).state
      ensures trace == old(trace) + CreateSchemaStep(old(Snapshot()), env).calls
      ensures o == CreateSchemaStep(old(Snapshot()), env).outcome
      ensures env.schemaQueries.Ok? ==> schema.Some? && schema.value.queries == QueryMerge.MergeQueries(env.schemaQueries.value)
      ensures env.schemaQueries.Err? ==> schema == old(schema)
    {
      o := InvokeHook(CreateSchemaQueries, if env.schemaQueries.Ok? then Resolved else Rejected(env.schemaQueries.reason));
      if o.Rejected? {
        return;
      }
      var results := env.schemaQueries.value;
      var queries := if |results| > 0 then QueryMerge.Assign(results[0], results[1..]) else map[];
      schema := Some(Schema(queries));
      trace := trace + [BuildSchema(queries)];
    }

    /**
      `generateFiles()`: build the route data from the store, the router from
      its pages, then regenerate every file with `generate()`.
     */
    method GenerateFiles(env: Env) returns (o: Outcome)
      requires Initialized(Snapshot())
      modifies this`routerData, this`router, this`trace
      ensures Snapshot() == GenerateFilesStep(old(Snapshot()), env).state
      ensures trace == old(trace) + GenerateFilesStep(old(Snapshot()), env).calls
      ensures o == env.generate
      ensures router.Some? && router.value.routes == RouteTable.Routes(env.routerData.pages)
      ensures trace[|trace| - 1] == Generate(None)
    {
      routerData := Some(env.routerData);
      trace := trace + [BuildRoutes];
      var r := Router("/", "history", false, RouteTable.Routes(env.routerData.pages));
      router := Some(r);
      trace := trace + [NewRouter(r)];
      trace := trace + [Generate(None)];
      o := env.generate;
    }

    /**
      `broadcast(message, hotReload)`: write the serialized message once to
      every client, then, on hot reload, regenerate the live artifact only.
      Without hot reload it returns `undefined` (here `None`). Before `init`
      has set the generator, a hot-reload broadcast still writes to every
      client and then throws.
     */
    method Broadcast(message: Message, hotReload: bool, serialize: Message -> string, env: Env) returns (r: Option<Outcome>)
      modifies this`clients, this`trace
      ensures Delivered(old(clients), clients, serialize(message))
      ensures hotReload && generator.Some? ==> trace == old(trace) + [Generate(Some(LiveArtifact))] && r == Some(env.liveGenerate)
      ensures hotReload && generator.None? ==> trace == old(trace) && r == Some(Rejected(GeneratorUnsetError))
      ensures !hotReload ==> trace == old(trace) && r == None
    {
      var payload := serialize(message);
      var pending := clients.Keys;
      while pending != {}
        invariant pending <= clients.Keys
        invariant clients.Keys == old(clients).Keys
        invariant forall c :: c in pending ==> clients[c] == old(clients)[c]
        invariant forall c :: c in clients && c !in pending ==> clients[c] == old(clients)[c] + [payload]
        invariant trace == old(trace)
        decreases pending
      {
        var c :| c in pending;
        clients := clients[c := clients[c] + [payload]];
        pending := pending - {c};
      }
      if hotReload {
        if generator.None? {
          r := Some(Rejected(GeneratorUnsetError));
        } else {
          trace := trace + [Generate(Some(LiveArtifact))];
          r := Some(env.liveGenerate);
        }
      } else {
        r := None;
      }
    }

    /**
      The handlers `init` subscribes: a `broadcast` event broadcasts its
      message with hot reload; a `generateRoutes` event runs `generateFiles()`,
      whose result nobody awaits.
     */
    method OnPluginEvent(event: PluginEvent, serialize: Message -> string, env: Env)
      requires Initialized(Snapshot())
      modifies this
      ensures event.BroadcastEmitted? ==>
                Delivered(old(clients), clients, serialize(event.message))
                && Snapshot() == old(Snapshot())
                && trace == old(trace) + [Generate(Some(LiveArtifact))]
      ensures event.GenerateRoutesEmitted? ==>
                clients == old(clients)
                && Snapshot() == GenerateFilesStep(old(Snapshot()), env).state
                && trace == old(trace) + GenerateFilesStep(old(Snapshot()), env).calls
    {
      match event
      case BroadcastEmitted(message) =>
        var ignored := Broadcast(message, true, serialize, env);
      case GenerateRoutesEmitted =>
        var ignored := GenerateFiles(env);
    }
  }
}

=== FILE: Phases.dfy ===
/**
  The bootstrap phases of the App (gridsome/lib/app/App.js:26-104) as a
  state-transition specification: the fixed phase list, which phases a
  target phase selects, what each phase does to the App's fields and to the
  trace of collaborator calls, and what `bootstrap(phase)` does overall.
  The class in Application.dfy is proved to follow these functions; the
  lemmas here state what they promise.
 */
module Phases {
  import opened Types
  import QueryMerge
  import RouteTable

  datatype Phase = Initialize | RunPlugins | CreateGraphQLSchema | GenerateCode

  /** The phase list of `bootstrap`, in the order it is walked. */
  const PhaseList: seq<Phase> := [Initialize, RunPlugins, CreateGraphQLSchema, GenerateCode]

  /** `phases.indexOf(current)`. */
  function Index(p: Phase): nat {
    match p
    case Initialize => 0
    case RunPlugins => 1
    case CreateGraphQLSchema => 2
    case GenerateCode => 3
  }

  /** The phases among the first `n` of the list whose index is `<= phase`, in list order. */
  function SelectBelow(n: nat, phase: int): seq<Phase>
    requires n <= |PhaseList|
  {
    if n == 0 then [] else SelectBelow(n - 1, phase) + (if n - 1 <= phase then [PhaseList[n - 1]] else [])
  }

  /** The phases `bootstrap(phase)` runs. */
  function Selected(phase: int): seq<Phase> {
    SelectBelow(|PhaseList|, phase)
  }

  /** The first `n` phases select those of index `<= phase`: a prefix of the list. */
  lemma {:induction false} SelectBelowPrefix(n: nat, phase: int)
    requires n <= |PhaseList|
    ensures SelectBelow(n, phase) == PhaseList[..if phase < 0 then 0 else if phase + 1 < n then phase + 1 else n]
  {
    if n > 0 {
      SelectBelowPrefix(n - 1, phase);
    }
  }

  /**
    `bootstrap(phase)` selects exactly the phases whose index is `<= phase`,
    each once and in ascending order; any `phase >= 3` selects all four and
    any negative `phase` none.
   */
  lemma SelectedPhases(phase: int)
    ensures |Selected(phase)| == if phase < 0 then 0 else if phase >= 3 then 4 else phase + 1
    ensures forall i :: 0 <= i < |Selected(phase)| ==> Index(Selected(phase)[i]) == i
    ensures forall p :: p in Selected(phase) <==> Index(p) <= phase
    ensures phase >= 3 ==> Selected(phase) == PhaseList
  {
    SelectBelowPrefix(|PhaseList|, phase);
    var sel := Selected(phase);
    forall p ensures p in sel <==> Index(p) <= phase {
      assert PhaseList[Index(p)] == p;
      if Index(p) <= phase {
        assert sel[Index(p)] == p;
      }
    }
  }

  /** The App's fields that the phases set. */
  datatype State = State(
    store: Option<Store>,
    queue: Option<Queue>,
    plugins: Option<PluginsRunner>,
    generator: Option<Generator>,
    schema: Option<Schema>,
    routerData: Option<RouterData>,
    router: Option<Router>)

  /** What running part of the App does: the fields it leaves, the calls it makes, how it settles. */
  datatype Effect = Effect(state: State, calls: seq<Call>, outcome: Outcome)

  /** The fields `init` sets. */
  predicate Initialized(s: State) {
    s.store.Some? && s.queue.Some? && s.plugins.Some? && s.generator.Some?
  }

  /** The calls of `init`: four constructions, two subscriptions, then the `init` hook. */
  const InitCalls: seq<Call> := [
    NewStore, NewQueue, NewPluginsRunner, NewCodeGenerator,
    Subscribe(BroadcastEvent), Subscribe(GenerateRoutesEvent),
    CallHook(InitHook)]

  /** `init()`. */
  function InitStep(s: State, env: Env): Effect {
    Effect(s.(store := Some(BaseStore), queue := Some(ImageProcessQueue),
              plugins := Some(PluginsRunner), generator := Some(CodeGenerator)),
           InitCalls, env.initHook)
  }

  /** `runPlugins()`. */
  function RunPluginsStep(s: State, env: Env): Effect {
    Effect(s, [PluginsRun], env.pluginsRun)
  }

  /** `createSchema()`: the schema is built only once the hook has resolved. */
  function CreateSchemaStep(s: State, env: Env): Effect {
    match env.schemaQueries
    case Err(e) => Effect(s, [CallHook(CreateSchemaQueries)], Rejected(e))
    case Ok(results) =>
      var queries := QueryMerge.MergeQueries(results);
      Effect(s.(schema := Some(Schema(queries))), [CallHook(CreateSchemaQueries), BuildSchema(queries)], Resolved)
  }

  /** `generateFiles()`: route data, then the router, then a full `generate()`. */
  function GenerateFilesStep(s: State, env: Env): Effect {
    var router := RouteTable.RouterFor(env.routerData);
    Effect(s.(routerData := Some(env.routerData), router := Some(router)),
           [BuildRoutes, NewRouter(router), Generate(None)], env.generate)
  }

  /** `current.run(this)`. */
  function Step(p: Phase, s: State, env: Env): Effect {
    match p
    case Initialize => InitStep(s, env)
    case RunPlugins => RunPluginsStep(s, env)
    case CreateGraphQLSchema => CreateSchemaStep(s, env)
    case GenerateCode => GenerateFilesStep(s, env)
  }

  /** Awaiting the phases one after another: a rejection stops the walk. */
  function RunPhases(ps: seq<Phase>, s: State, env: Env): (r: Effect)
    ensures r.outcome.Rejected? ==> ps != []
    ensures r.outcome.Resolved? ==> |r.calls| >= |ps|
    decreases |ps|
  {
    if ps == [] then Effect(s, [], Resolved)
    else
      var before := RunPhases(ps[..|ps| - 1], s, env);
      if before.outcome.Rejected? then before
      else
        var last := Step(ps[|ps| - 1], before.state, env);
        Effect(last.state, before.calls + last.calls, last.outcome)
  }

  /** The rejection `this.plugins.callHook` raises while `this.plugins` is still undefined. */
  const PluginsUnsetError := "TypeError: Cannot read properties of undefined (reading 'callHook')"

  /** After the phase loop: `await this.plugins.callHook('afterBootstrap')`. */
  function Finish(ran: Effect, env: Env): (r: Effect)
    ensures r.state == ran.state
    ensures |ran.calls| <= |r.calls| <= |ran.calls| + 1 && r.calls[..|ran.calls|] == ran.calls
    ensures r.outcome.Resolved? ==> ran.outcome.Resolved? && r.calls == ran.calls + [CallHook(AfterBootstrap)]
  {
    if ran.outcome.Rejected? then ran
    else if ran.state.plugins.None? then Effect(ran.state, ran.calls, Rejected(PluginsUnsetError))
    else Effect(ran.state, ran.calls + [CallHook(AfterBootstrap)], env.afterBootstrap)
  }

  /** `bootstrap(phase)`: the selected phases, then the `afterBootstrap` hook. */
  function BootstrapSpec(phase: int, s: State, env: Env): (r: Effect)
    ensures phase < 0 ==> r.state == s && |r.calls| <= 1
    ensures r.outcome.Resolved? ==> |r.calls| > 0 && r.calls[|r.calls| - 1] == CallHook(AfterBootstrap)
  {
    SelectBelowPrefix(|PhaseList|, phase);
    Finish(RunPhases(Selected(phase), s, env), env)
  }

  //
  // Observing a run through its calls
  //

  /** The phase whose code begins with this call. */
  function PhaseEntered(c: Call): Option<Phase> {
    match c
    case NewStore => Some(Initialize)
    case PluginsRun => Some(RunPlugins)
    case CallHook(h) => if h == CreateSchemaQueries then Some(CreateGraphQLSchema) else None
    case BuildRoutes => Some(GenerateCode)
    case _ => None
  }

  /** The phases entered, in order, according to a sequence of calls. */
  function Started(calls: seq<Call>): seq<Phase> {
    if calls == [] then []
    else (if PhaseEntered(calls[0]).Some? then [PhaseEntered(calls[0]).value] else []) + Started(calls[1..])
  }

  /** How many times a sequence of calls invokes hook `h`. */
  function HookCalls(calls: seq<Call>, h: Hook): nat {
    if calls == [] then 0 else (if calls[0] == CallHook(h) then 1 else 0) + HookCalls(calls[1..], h)
  }

  /** How a phase settles; it depends only on what the collaborators answer. */
  function PhaseOutcome(p: Phase, env: Env): Outcome {
    match p
    case Initialize => env.initHook
    case RunPlugins => env.pluginsRun
    case CreateGraphQLSchema => if env.schemaQueries.Ok? then Resolved else Rejected(env.schemaQueries.reason)
    case GenerateCode => env.generate
  }

  predicate AllResolve(ps: seq<Phase>, env: Env) {
    forall i :: 0 <= i < |ps| ==> PhaseOutcome(ps[i], env).Resolved?
  }

  /** The phases a fail-fast walk over `ps` enters: all of them up to and including the first that rejects. */
  function Attempted(ps: seq<Phase>, env: Env): seq<Phase> {
    if ps == [] then []
    else if PhaseOutcome(ps[0], env).Rejected? then [ps[0]]
    else [ps[0]] + Attempted(ps[1..], env)
  }

  //
  // Lemmas
  //

  lemma {:induction false} StartedAppend(a: seq<Call>, b: seq<Call>)
    ensures Started(a + b) == Started(a) + Started(b)
    ensures HookCalls(a + b, AfterBootstrap) == HookCalls(a, AfterBootstrap) + HookCalls(b, AfterBootstrap)
    decreases |a|
  {
    if a == [] {
      assert a + b == b;
    } else {
      var ab := a + b;
      assert ab[0] == a[0] && ab[1..] == a[1..] + b;
      var head := if PhaseEntered(a[0]).Some? then [PhaseEntered(a[0]).value] else [];
      assert Started(ab) == head + Started(a[1..] + b);
      assert Started(a) == head + Started(a[1..]);
      StartedAppend(a[1..], b);
    }
  }


  /** Calls that begin no phase and are not the `afterBootstrap` hook are invisible to both observations. */
  lemma {:induction false} QuietCalls(calls: seq<Call>)
    requires forall i :: 0 <= i < |calls| ==> PhaseEntered(calls[i]).None? && calls[i] != CallHook(AfterBootstrap)
    ensures Started(calls) == [] && HookCalls(calls, AfterBootstrap) == 0
    decreases |calls|
  {
    if calls != [] {
      QuietCalls(calls[1..]);
    }
  }

  /** A phase's calls begin with the call that enters it, followed by quiet calls. */
  lemma EnteredBy(calls: seq<Call>, p: Phase)
    requires calls != [] && PhaseEntered(calls[0]) == Some(p)
    requires forall i :: 1 <= i < |calls| ==> PhaseEntered(calls[i]).None? && calls[i] != CallHook(AfterBootstrap)
    ensures Started(calls) == [p] && HookCalls(calls, AfterBootstrap) == 0
  {
    QuietCalls(calls[1..]);
  }

  /** Each phase enters itself only, never calls `afterBootstrap`, and settles as its collaborator does. */
  lemma StepFacts(p: Phase, s: State, env: Env)
    ensures Started(Step(p, s, env).calls) == [p]
    ensures HookCalls(Step(p, s, env).calls, AfterBootstrap) == 0
    ensures Step(p, s, env).outcome == PhaseOutcome(p, env)
  {
    match p
    case Initialize =>
      EnteredBy(InitCalls, Initialize);
    case RunPlugins =>
      EnteredBy([PluginsRun], RunPlugins);
    case CreateGraphQLSchema =>
      var calls := CreateSchemaStep(s, env).calls;
      assert calls[0] == CallHook(CreateSchemaQueries);
      EnteredBy(calls, CreateGraphQLSchema);
    case GenerateCode =>
      var calls := GenerateFilesStep(s, env).calls;
      assert calls[0] == BuildRoutes && |calls| == 3;
      EnteredBy(calls, GenerateCode);
  }

  /** One more phase is attempted exactly when all the earlier ones resolved. */
  lemma {:induction false} AttemptedSnoc(ps: seq<Phase>, p: Phase, env: Env)
    ensures Attempted(ps + [p], env) == if AllResolve(ps, env) then ps + [p] else Attempted(ps, env)
    decreases |ps|
  {
    if ps == [] {
      assert ps + [p] == [p];
    } else {
      assert (ps + [p])[0] == ps[0];
      assert (ps + [p])[1..] == ps[1..] + [p];
      AttemptedSnoc(ps[1..], p, env);
      if PhaseOutcome(ps[0], env).Resolved? {
        AllResolveCons(ps, env);
      }
    }
  }

  lemma AllResolveCons(ps: seq<Phase>, env: Env)
    requires ps != []
    ensures AllResolve(ps, env) <==> PhaseOutcome(ps[0], env).Resolved? && AllResolve(ps[1..], env)
  {
  }

  lemma AllResolveSnoc(ps: seq<Phase>, p: Phase, env: Env)
    ensures AllResolve(ps + [p], env) <==> AllResolve(ps, env) && PhaseOutcome(p, env).Resolved?
  {
    if AllResolve(ps + [p], env) {
      forall i | 0 <= i < |ps| ensures PhaseOutcome(ps[i], env).Resolved? {
        assert ps[i] == (ps + [p])[i];
      }
      assert p == (ps + [p])[|ps|];
    }
  }

  /**
    A fail-fast walk enters a prefix of the phases: all of them when all
    resolve, otherwise up to and including the first that rejects, all of
    whose predecessors resolved.
   */
  lemma {:induction false} AttemptedPrefix(ps: seq<Phase>, env: Env)
    ensures |Attempted(ps, env)| <= |ps| && Attempted(ps, env) == ps[..|Attempted(ps, env)|]
    ensures AllResolve(ps, env) ==> Attempted(ps, env) == ps
    ensures !AllResolve(ps, env) ==>
              |Attempted(ps, env)| > 0
              && PhaseOutcome(Attempted(ps, env)[|Attempted(ps, env)| - 1], env).Rejected?
              && AllResolve(Attempted(ps, env)[..|Attempted(ps, env)| - 1], env)
    decreases |ps|
  {
    if ps != [] {
      AttemptedPrefix(ps[1..], env);
      AllResolveCons(ps, env);
      var rest := Attempted(ps[1..], env);
      if PhaseOutcome(ps[0], env).Resolved? {
        var a := Attempted(ps, env);
        assert a == [ps[0]] + rest;
        assert ps[..|a|] == [ps[0]] + ps[1..][..|rest|];
        if !AllResolve(ps[1..], env) {
          assert a[..|a| - 1] == [ps[0]] + rest[..|rest| - 1];
          AllResolveCons(a[..|a| - 1], env);
          assert a[..|a| - 1][1..] == rest[..|rest| - 1];
        }
      } else {
        assert AllResolve([], env);
      }
    }
  }

  /**
    Walking `ps` enters exactly the attempted phases, never calls
    `afterBootstrap`, and settles like the first rejecting phase, or resolves
    when all resolve.
   */
  lemma {:induction false} RunPhasesCalls(ps: seq<Phase>, s: State, env: Env)
    ensures Started(RunPhases(ps, s, env).calls) == Attempted(ps, env)
    ensures HookCalls(RunPhases(ps, s, env).calls, AfterBootstrap) == 0
    ensures RunPhases(ps, s, env).outcome.Resolved? <==> AllResolve(ps, env)
    ensures RunPhases(ps, s, env).outcome.Rejected? ==>
              RunPhases(ps, s, env).outcome == PhaseOutcome(Attempted(ps, env)[|Attempted(ps, env)| - 1], env)
    decreases |ps|
  {
    if ps != [] {
      var init, p := ps[..|ps| - 1], ps[|ps| - 1];
      assert ps == init + [p];
      RunPhasesCalls(init, s, env);
      AttemptedSnoc(init, p, env);
      AllResolveSnoc(init, p, env);
      var mid := RunPhases(init, s, env);
      if mid.outcome.Resolved? {
        var last := Step(p, mid.state, env);
        StepFacts(p, mid.state, env);
        StartedAppend(mid.calls, last.calls);
        AttemptedPrefix(init, env);
      }
    }
  }

  /** What one phase does to the App's fields. */
  lemma StepFields(p: Phase, s: State, env: Env)
    ensures var r := Step(p, s, env).state;
      && (p == Initialize ==> Initialized(r))
      && (p != Initialize ==>
            r.store == s.store && r.queue == s.queue && r.plugins == s.plugins && r.generator == s.generator)
      && r.schema == (if p == CreateGraphQLSchema && env.schemaQueries.Ok?
                      then Some(Schema(QueryMerge.MergeQueries(env.schemaQueries.value))) else s.schema)
      && r.routerData == (if p == GenerateCode then Some(env.routerData) else s.routerData)
      && r.router == (if p == GenerateCode then Some(RouteTable.RouterFor(env.routerData)) else s.router)
  {
  }

  /** Once `init` has run, every phase leaves its four fields set. */
  lemma StepKeepsInitialized(p: Phase, s: State, env: Env)
    requires p == Initialize || Initialized(s)
    ensures Initialized(Step(p, s, env).state)
  {
  }

  /**
    What a walk leaves in the App's fields: `init`'s four fields once
    `Initialize` was entered, the schema built from the merged hook results
    once `Create GraphQL schema` resolved, the route data and router once
    `Generate code` was entered; every other field as it was.
   */
  lemma {:induction false} RunPhasesFields(ps: seq<Phase>, s: State, env: Env)
    ensures var r := RunPhases(ps, s, env).state;
      && (Initialize in Attempted(ps, env) ==> Initialized(r))
      && (Initialize !in Attempted(ps, env) ==>
            r.store == s.store && r.queue == s.queue && r.plugins == s.plugins && r.generator == s.generator)
      && r.schema == (if CreateGraphQLSchema in Attempted(ps, env) && env.schemaQueries.Ok?
                      then Some(Schema(QueryMerge.MergeQueries(env.schemaQueries.value))) else s.schema)
      && r.routerData == (if GenerateCode in Attempted(ps, env) then Some(env.routerData) else s.routerData)
      && r.router == (if GenerateCode in Attempted(ps, env) then Some(RouteTable.RouterFor(env.routerData)) else s.router)
    decreases |ps|
  {
    if ps != [] {
      var init, p := ps[..|ps| - 1], ps[|ps| - 1];
      assert ps == init + [p];
      RunPhasesFields(init, s, env);
      var mid := RunPhases(init, s, env);
      if mid.outcome.Resolved? {
        assert Attempted(init, env) == init && Attempted(ps, env) == init + [p] by {
          RunPhasesCalls(init, s, env);
          AttemptedSnoc(init, p, env);
          AttemptedPrefix(init, env);
        }
        StepFields(p, mid.state, env);
        if CreateGraphQLSchema in init {
          var i :| 0 <= i < |init| && init[i] == CreateGraphQLSchema;
          assert PhaseOutcome(init[i], env).Resolved? by { RunPhasesCalls(init, s, env); }
        }
      } else {
        assert Attempted(ps, env) == Attempted(init, env) by {
          RunPhasesCalls(init, s, env);
          AttemptedSnoc(init, p, env);
        }
      }
    }
  }

  /**
    A walk followed by the `afterBootstrap` hook enters exactly the attempted
    phases; it calls `afterBootstrap` once when they all resolved and the
    plugin runner exists, and never otherwise; it settles with the first
    rejection, with the TypeError of a missing plugin runner, or as the hook
    does.
   */
  lemma FinishFacts(ps: seq<Phase>, s: State, env: Env)
    ensures Started(Finish(RunPhases(ps, s, env), env).calls) == Attempted(ps, env)
    ensures HookCalls(Finish(RunPhases(ps, s, env), env).calls, AfterBootstrap)
              == if AllResolve(ps, env) && (Initialize in ps || s.plugins.Some?) then 1 else 0
    ensures Finish(RunPhases(ps, s, env), env).outcome ==
              if !AllResolve(ps, env)
              then PhaseOutcome(Attempted(ps, env)[|Attempted(ps, env)| - 1], env)
              else if Initialize in ps || s.plugins.Some? then env.afterBootstrap
              else Rejected(PluginsUnsetError)
  {
    RunPhasesCalls(ps, s, env);
    RunPhasesFields(ps, s, env);
    AttemptedPrefix(ps, env);
    var ran := RunPhases(ps, s, env);
    if ran.outcome.Resolved? && ran.state.plugins.Some? {
      StartedAppend(ran.calls, [CallHook(AfterBootstrap)]);
      assert Started([CallHook(AfterBootstrap)]) == [];
    }
  }

  /**
    `bootstrap(phase)` enters exactly the selected phases, in order, until
    one rejects; it calls `afterBootstrap` once when they all resolved and
    `this.plugins` exists (always so when `phase >= 0`), and never otherwise;
    it settles with the first rejection, with the TypeError of a missing
    plugin runner, or as the `afterBootstrap` hook does.
   */
  lemma BootstrapRunsSelectedPhases(phase: int, s: State, env: Env)
    ensures Started(BootstrapSpec(phase, s, env).calls) == Attempted(Selected(phase), env)
    ensures AllResolve(Selected(phase), env) ==> Started(BootstrapSpec(phase, s, env).calls) == Selected(phase)
    ensures HookCalls(BootstrapSpec(phase, s, env).calls, AfterBootstrap)
              == if AllResolve(Selected(phase), env) && (phase >= 0 || s.plugins.Some?) then 1 else 0
    ensures BootstrapSpec(phase, s, env).outcome ==
              if !AllResolve(Selected(phase), env)
              then PhaseOutcome(Attempted(Selected(phase), env)[|Attempted(Selected(phase), env)| - 1], env)
              else if phase >= 0 || s.plugins.Some? then env.afterBootstrap
              else Rejected(PluginsUnsetError)
  {
    SelectedPhases(phase);
    FinishFacts(Selected(phase), s, env);
    AttemptedPrefix(Selected(phase), env);
  }

  /**
    A bootstrap whose selected phases all resolve leaves the App initialized,
    with the schema built from the merged hook results once `phase >= 2` and
    the router built from the pages once `phase >= 3`, and leaves those
    fields as they were below that.
   */
  lemma BootstrapBuildsFields(phase: int, s: State, env: Env)
    requires phase >= 0 && AllResolve(Selected(phase), env)
    ensures Initialized(BootstrapSpec(phase, s, env).state)
    ensures phase >= 2 ==> (env.schemaQueries.Ok?
              && BootstrapSpec(phase, s, env).state.schema == Some(Schema(QueryMerge.MergeQueries(env.schemaQueries.value))))
    ensures phase < 2 ==> BootstrapSpec(phase, s, env).state.schema == s.schema
    ensures phase >= 3 ==> BootstrapSpec(phase, s, env).state.router == Some(RouteTable.RouterFor(env.routerData))
    ensures phase < 3 ==> BootstrapSpec(phase, s, env).state.router == s.router
  {
    var ps := Selected(phase);
    assert Attempted(ps, env) == ps by { AttemptedPrefix(ps, env); }
    assert RunPhases(ps, s, env).outcome.Resolved? by { RunPhasesCalls(ps, s, env); }
    assert Initialize in ps && (CreateGraphQLSchema in ps <==> phase >= 2) && (GenerateCode in ps <==> phase >= 3) by {
      SelectedPhases(phase);
    }
    if phase >= 2 {
      assert env.schemaQueries.Ok? by {
        var i :| 0 <= i < |ps| && ps[i] == CreateGraphQLSchema;
        assert PhaseOutcome(ps[i], env).Resolved?;
      }
    }
    RunPhasesFields(ps, s, env);
  }

  /** Walking more phases only appends calls to those of walking fewer. */
  lemma {:induction false} RunPhasesPrefix(xs: seq<Phase>, ys: seq<Phase>, s: State, env: Env)
    ensures |RunPhases(xs, s, env).calls| <= |RunPhases(xs + ys, s, env).calls|
    ensures RunPhases(xs + ys, s, env).calls[..|RunPhases(xs, s, env).calls|] == RunPhases(xs, s, env).calls
    decreases |ys|
  {
    if ys == [] {
      assert xs + ys == xs;
    } else {
      var init, p := ys[..|ys| - 1], ys[|ys| - 1];
      assert xs + ys == (xs + init) + [p];
      assert ((xs + init) + [p])[..|xs + ys| - 1] == xs + init;
      RunPhasesPrefix(xs, init, s, env);
    }
  }

  /** Every bootstrap that runs a phase begins with exactly the calls of `init`. */
  lemma BootstrapBeginsWithInit(phase: int, s: State, env: Env)
    requires phase >= 0
    ensures |BootstrapSpec(phase, s, env).calls| >= |InitCalls|
    ensures BootstrapSpec(phase, s, env).calls[..|InitCalls|] == InitCalls
  {
    var ps := Selected(phase);
    var ran := RunPhases(ps, s, env);
    assert ps == [Initialize] + ps[1..] by { SelectedPhases(phase); }
    assert RunPhases([Initialize], s, env).calls == InitCalls by { assert [Initialize][..0] == []; }
    assert |InitCalls| <= |ran.calls| && ran.calls[..|InitCalls|] == InitCalls by {
      RunPhasesPrefix([Initialize], ps[1..], s, env);
    }
    assert BootstrapSpec(phase, s, env).calls[..|ran.calls|] == ran.calls;
  }

  /**
    Every bootstrap that runs a phase subscribes the `broadcast` and
    `generateRoutes` handlers before it calls the `init` hook, and before any
    plugin is run.
   */
  lemma BootstrapSubscribesFirst(phase: int, s: State, env: Env)
    requires phase >= 0
    ensures |BootstrapSpec(phase, s, env).calls| >= |InitCalls|
    ensures BootstrapSpec(phase, s, env).calls[4] == Subscribe(BroadcastEvent)
    ensures BootstrapSpec(phase, s, env).calls[5] == Subscribe(GenerateRoutesEvent)
    ensures BootstrapSpec(phase, s, env).calls[6] == CallHook(InitHook)
    ensures forall j :: 0 <= j < |BootstrapSpec(phase, s, env).calls| && BootstrapSpec(phase, s, env).calls[j] == PluginsRun
              ==> j >= |InitCalls|
  {
    var calls := BootstrapSpec(phase, s, env).calls;
    assert |calls| >= |InitCalls| && calls[..|InitCalls|] == InitCalls by { BootstrapBeginsWithInit(phase, s, env); }
    forall j | 0 <= j < |InitCalls|
      ensures calls[j] == InitCalls[j] && calls[j] != PluginsRun
    {
      assert calls[j] == calls[..|InitCalls|][j];
    }
  }

  /** Once a walk over the first `n` selected phases has rejected, the later phases add nothing. */
  lemma {:induction false} RejectionStops(n: nat, phase: int, s: State, env: Env)
    requires n <= |PhaseList|
    requires RunPhases(SelectBelow(n, phase), s, env).outcome.Rejected?
    ensures RunPhases(Selected(phase), s, env) == RunPhases(SelectBelow(n, phase), s, env)
    decreases |PhaseList| - n
  {
    if n < |PhaseList| {
      assert RunPhases(SelectBelow(n + 1, phase), s, env) == RunPhases(SelectBelow(n, phase), s, env) by {
        SelectBelowNext(n, phase);
        RunPhasesRejectedSnoc(SelectBelow(n, phase), PhaseList[n], s, env);
      }
      RejectionStops(n + 1, phase, s, env);
    }
  }

  /** A walk that has rejected ignores any further phase. */
  lemma RunPhasesRejectedSnoc(ps: seq<Phase>, p: Phase, s: State, env: Env)
    requires RunPhases(ps, s, env).outcome.Rejected?
    ensures RunPhases(ps + [p], s, env) == RunPhases(ps, s, env)
  {
  }

  lemma SelectBelowNext(n: nat, phase: int)
    requires n < |PhaseList|
    ensures SelectBelow(n + 1, phase) == if n <= phase then SelectBelow(n, phase) + [PhaseList[n]] else SelectBelow(n, phase)
  {
  }

  /** A walk that has resolved so far goes on with the next phase. */
  lemma RunPhasesSnoc(ps: seq<Phase>, p: Phase, s: State, env: Env)
    requires RunPhases(ps, s, env).outcome.Resolved?
    ensures var before := RunPhases(ps, s, env);
      RunPhases(ps + [p], s, env)
        == Effect(Step(p, before.state, env).state, before.calls + Step(p, before.state, env).calls, Step(p, before.state, env).outcome)
  {
  }
}

=== FILE: QueryMerge.dfy ===
/**
  The merge of the `createSchemaQueries` hook results in `App.createSchema`
  (gridsome/lib/app/App.js:81-87): `queries.length ? Object.assign(...queries) : {}`.
 */
module QueryMerge {
  import opened Types

  /** `Object.assign(target, ...sources)`: copy the keys of each source onto the target, left to right. */
  function Assign(target: QueryMap, sources: seq<QueryMap>): (r: QueryMap)
    ensures target.Keys <= r.Keys
    ensures forall i :: 0 <= i < |sources| ==> sources[i].Keys <= r.Keys
    ensures |sources| > 0 ==> forall k :: k in sources[|sources| - 1] ==> r[k] == sources[|sources| - 1][k]
    decreases |sources|
  {
    if sources == [] then target else Assign(target + sources[0], sources[1..])
  }

  /** The `queries` option given to the schema builder, from the hook results in hook order. */
  function MergeQueries(results: seq<QueryMap>): (r: QueryMap)
    ensures |results| == 0 ==> r == map[]
    ensures forall i :: 0 <= i < |results| ==> results[i].Keys <= r.Keys
    ensures |results| > 0 ==> forall k :: k in results[|results| - 1] ==> r[k] == results[|results| - 1][k]
  {
    if |results| == 0 then map[] else Assign(results[0], results[1..])
  }

  /** Assigning one more source is a union in which that source's keys win. */
  lemma {:induction false} AssignSnoc(target: QueryMap, sources: seq<QueryMap>, last: QueryMap)
    ensures Assign(target, sources + [last]) == Assign(target, sources) + last
    decreases |sources|
  {
    if sources == [] {
      assert Assign(target, [last]) == Assign(target + last, []);
    } else {
      assert (sources + [last])[1..] == sources[1..] + [last];
      AssignSnoc(target + sources[0], sources[1..], last);
    }
  }

  /** One more hook result is laid over the merge of the earlier ones; no results merge to `{}`. */
  lemma {:induction false} MergeQueriesSnoc(results: seq<QueryMap>, last: QueryMap)
    ensures MergeQueries([]) == map[]
    ensures MergeQueries(results + [last]) == MergeQueries(results) + last
  {
    if results == [] {
      assert results + [last] == [last];
      assert MergeQueries([last]) == last;
      assert map[] + last == last;
    } else {
      assert (results + [last])[0] == results[0];
      assert (results + [last])[1..] == results[1..] + [last];
      AssignSnoc(results[0], results[1..], last);
    }
  }

  /**
    The merge is the shallow union of all hook results: a key is present iff
    some result has it, and its value is the one of the LAST result that has it.
   */
  lemma {:induction false} MergeQueriesUnion(results: seq<QueryMap>)
    ensures forall k :: k in MergeQueries(results) <==> exists i :: 0 <= i < |results| && k in results[i]
    ensures forall i, k :: 0 <= i < |results| && k in results[i]
              && (forall j :: i < j < |results| ==> k !in results[j])
              ==> k in MergeQueries(results) && MergeQueries(results)[k] == results[i][k]
    decreases |results|
  {
    if results != [] {
      var init, last := results[..|results| - 1], results[|results| - 1];
      assert results == init + [last];
      MergeQueriesSnoc(init, last);
      MergeQueriesUnion(init);
      forall k | k in MergeQueries(results)
        ensures exists i :: 0 <= i < |results| && k in results[i]
      {
        if k in last {
          assert k in results[|results| - 1];
        } else {
          var i :| 0 <= i < |init| && k in init[i];
          assert k in results[i];
        }
      }
      forall i, k | 0 <= i < |results| && k in results[i]
        && (forall j :: i < j < |results| ==> k !in results[j])
        ensures k in MergeQueries(results) && MergeQueries(results)[k] == results[i][k]
      {
        if i < |init| {
          assert k !in last by { assert last == results[|results| - 1]; }
          assert init[i] == results[i];
          assert forall j :: i < j < |init| ==> init[j] == results[j];
        }
      }
    }
  }

  /** The first plugin's keys survive only where no later plugin supplies the same key. */
  lemma MergeQueriesLaterOverrides(first: QueryMap, second: QueryMap, k: string)
    requires k in first && k in second
    ensures k in MergeQueries([first, second]) && MergeQueries([first, second])[k] == second[k]
  {
  }
}

=== FILE: RouteQuery.dfy ===
/**
  The query helpers of the App (gridsome/lib/app/App.js:114-132): `graphql`,
  which dispatches a query to the GraphQL executor by the kind of its
  argument, and `queryRouteData`, which runs the page query of a resolved
  route. The App's `this.schema` and `{ store, config }` are passed in
  explicitly; the executor itself is opaque, so a query is modelled by the
  request the App hands to it.
 */
module RouteQuery {
  import opened Types

  /** A call into the executor: `execute(schema, document, undefined, context, variables)` or `graphql(...)` with query text. */
  datatype Request =
    | Execute(schema: Option<Schema>, document: Document, context: QueryContext, variables: map<string, string>)
    | RunGraphql(schema: Option<Schema>, source: string, context: QueryContext, variables: map<string, string>)

  /** What `queryRouteData` returns: the literal `{ data: {} }`, or the pending result of an executor request. */
  datatype QueryResult = EmptyData | Pending(request: Request)

  /** The query argument a request carries. */
  function Argument(r: Request): QueryArg {
    match r
    case Execute(_, d, _, _) => Parsed(d)
    case RunGraphql(_, t, _, _) => Source(t)
  }

  /** `graphql(docOrQuery, variables)`: objects go to `execute`, everything else to `graphql`. */
  function Graphql(schema: Option<Schema>, context: QueryContext, arg: QueryArg, variables: map<string, string>): (r: Request)
    ensures r.Execute? <==> arg.Parsed?
    ensures r.schema == schema && r.context == context && r.variables == variables
    ensures Argument(r) == arg
  {
    match arg
    case Parsed(d) => Execute(schema, d, context, variables)
    case Source(t) => RunGraphql(schema, t, context, variables)
  }

  /** `{ ...route.params, path: route.path }`. */
  function Variables(route: ResolvedRoute): (v: map<string, string>)
    ensures v.Keys == route.params.Keys + {"path"}
    ensures "path" in v && v["path"] == route.path
    ensures forall k :: k in route.params && k != "path" ==> k in v && v[k] == route.params[k]
  {
    route.params["path" := route.path]
  }

  /** JavaScript truthiness of a page query: `undefined` and the empty string are falsy, a document is not. */
  predicate QueryTruthy(q: Option<QueryArg>): (b: bool)
    ensures b ==> q.Some?
    ensures q.Some? && q.value.Parsed? ==> b
    ensures q == Some(Source("")) ==> !b
    ensures q.Some? && q.value.Source? && q.value.text != "" ==> b
  {
    q.Some? && !(q.value.Source? && q.value.text == "")
  }

  /** The page query of the first record a route matched; it needs at least one record. */
  function FirstPageQuery(route: ResolvedRoute): Option<QueryArg>
    requires |route.matched| > 0
  {
    route.matched[0].component.pageQuery.query
  }

  /**
    `queryRouteData(route, docOrQuery)`: `{ data: {} }` when the route matched
    nothing or its page declares no query, otherwise that page query run with
    the route's variables. The `docOrQuery` argument is not read.
   */
  function QueryRouteData(schema: Option<Schema>, context: QueryContext, route: ResolvedRoute, docOrQuery: QueryArg): (r: QueryResult)
    ensures r.EmptyData? <==> (|route.matched| == 0 || !QueryTruthy(FirstPageQuery(route)))
    ensures r.Pending? ==> r.request.schema == schema && r.request.context == context
    ensures r.Pending? ==> r.request.variables == Variables(route)
    ensures r.Pending? ==> Argument(r.request) == route.matched[0].component.pageQuery.query.value
  {
    if |route.matched| == 0 then EmptyData
    else
      var query := route.matched[0].component.pageQuery.query;
      if QueryTruthy(query) then Pending(Graphql(schema, context, query.value, Variables(route)))
      else EmptyData
  }

  /** The executor is reached exactly when the matched page declares a non-empty query, and by kind. */
  lemma QueryRouteDataDispatch(schema: Option<Schema>, context: QueryContext, route: ResolvedRoute, docOrQuery: QueryArg)
    requires |route.matched| > 0 && QueryTruthy(FirstPageQuery(route))
    ensures QueryRouteData(schema, context, route, docOrQuery).Pending?
    ensures QueryRouteData(schema, context, route, docOrQuery).request.Execute? <==> FirstPageQuery(route).value.Parsed?
    ensures QueryRouteData(schema, context, route, docOrQuery).request.variables["path"] == route.path
  {
  }

  /** The second argument of `queryRouteData` makes no difference to its result. */
  lemma QueryRouteDataIgnoresArgument(schema: Option<Schema>, context: QueryContext, route: ResolvedRoute, a: QueryArg, b: QueryArg)
    ensures QueryRouteData(schema, context, route, a) == QueryRouteData(schema, context, route, b)
  {
  }
}

=== FILE: RouteTable.dfy ===
/**
  The route table `App.generateFiles` hands to vue-router
  (gridsome/lib/app/App.js:93-101): one record per page, in page order, whose
  path is `page.route || page.path` and whose component resolves to the page.
 */
module RouteTable {
  import opened Types

  /** `page.route || page.path`. */
  function RoutePath(page: Page): (path: string)
    ensures path == page.path || (Truthy(page.route) && path == page.route.value)
    ensures Truthy(page.route) ==> path == page.route.value
    ensures path == "" ==> page.path == ""
  {
    if Truthy(page.route) then page.route.value else page.path
  }

  /** `pages.map(page => ({ path: page.route || page.path, component: () => page }))`. */
  function Routes(pages: seq<Page>): (routes: seq<RouteRecord>)
    ensures |routes| == |pages|
    ensures forall i :: 0 <= i < |pages| ==> routes[i].component == pages[i]
    ensures forall i :: 0 <= i < |pages| && Truthy(pages[i].route) ==> routes[i].path == pages[i].route.value
    ensures forall i :: 0 <= i < |pages| && !Truthy(pages[i].route) ==> routes[i].path == pages[i].path
  {
    if pages == [] then [] else [RouteRecord(RoutePath(pages[0]), pages[0])] + Routes(pages[1..])
  }

  /** The options of `new Router(...)`: history mode under `/`, no fallback, the projected routes. */
  function RouterFor(data: RouterData): (r: Router)
    ensures r.base == "/" && r.mode == "history" && !r.fallback
    ensures r.routes == Routes(data.pages)
  {
    Router("/", "history", false, Routes(data.pages))
  }

  /** The projection is taken page by page: the routes of two page lists are the two route lists joined. */
  lemma RoutesAppend(a: seq<Page>, b: seq<Page>)
    ensures Routes(a + b) == Routes(a) + Routes(b)
  {
  }

  /** The pages can be read back from the route table's components, in order. */
  lemma {:induction false} RoutesKeepPages(pages: seq<Page>)
    ensures Components(Routes(pages)) == pages
    decreases |pages|
  {
    if pages != [] {
      RoutesKeepPages(pages[1..]);
      assert Routes(pages)[1..] == Routes(pages[1..]);
    }
  }

  /** The pages the records of a route table resolve to. */
  function Components(routes: seq<RouteRecord>): seq<Page> {
    if routes == [] then [] else [routes[0].component] + Components(routes[1..])
  }
}

=== FILE: Types.dfy ===
/**
  The values the bootstrap orchestrator of gridsome/lib/app/App.js handles.

  Every collaborator the App calls (the content store, the image queue, the
  plugin runner, the code generator, the schema builder, the route builder,
  vue-router and the GraphQL executor) is opaque here: constructing one gives
  an opaque handle, calling one appends a `Call` to the App's trace, and what
  the call returns is supplied from outside in an `Env`.
 */
module Types {

  datatype Option<+T> = None | Some(value: T)

  /** The settled state of an awaited promise (or of a synchronous call that may throw). */
  datatype Outcome = Resolved | Rejected(reason: string)

  /** A settled promise that carries a value when it resolves. */
  datatype Result<+T> = Ok(value: T) | Err(reason: string)

  /** Opaque handles for the objects `init` constructs. */
  datatype Store = BaseStore
  datatype Queue = ImageProcessQueue
  datatype PluginsRunner = PluginsRunner
  datatype Generator = CodeGenerator

  /** The loaded site configuration; `loadConfig` is not part of this model. */
  datatype Config = Config(options: map<string, string>)

  /** Lifecycle hooks the App calls through the plugin runner. */
  datatype Hook = InitHook | CreateSchemaQueries | AfterBootstrap

  /** Events the plugin runner emits and the App subscribes to in `init`. */
  datatype EventName = BroadcastEvent | GenerateRoutesEvent

  /** A field definition a plugin contributes to the schema's root query. */
  datatype FieldDef = FieldDef(name: string)

  /** A plain object of query fields, as returned by a `createSchemaQueries` handler. */
  type QueryMap = map<string, FieldDef>

  /** The schema `createSchema(store, { queries })` builds, known here by the queries it was given. */
  datatype Schema = Schema(queries: QueryMap)

  /** A parsed GraphQL document (opaque). */
  datatype Document = Document(ast: string)

  /**
    The argument of `graphql(docOrQuery)`: an object (a parsed document) or
    anything else, which the source hands to `graphql` as query text.
   */
  datatype QueryArg = Parsed(document: Document) | Source(text: string)

  /** The `pageQuery` of a page component; `query` absent is JavaScript `undefined`. */
  datatype PageQuery = PageQuery(query: Option<QueryArg>)

  /** A page produced by `createRoutes(store)`; `route` absent is JavaScript `undefined`. */
  datatype Page = Page(route: Option<string>, path: string, pageQuery: PageQuery)

  /** What `createRoutes(store)` returns, known here by its `pages`. */
  datatype RouterData = RouterData(pages: seq<Page>)

  /** One entry of the vue-router route table: `{ path, component: () => page }`. */
  datatype RouteRecord = RouteRecord(path: string, component: Page)

  /** The options `generateFiles` passes to `new Router(...)`. */
  datatype Router = Router(base: string, mode: string, fallback: bool, routes: seq<RouteRecord>)

  /** A resolved vue-router route: its path, its params and the records it matched. */
  datatype ResolvedRoute = ResolvedRoute(path: string, params: map<string, string>, matched: seq<RouteRecord>)

  /** The context object `graphql` hands to the executor: `{ store, config }`. */
  datatype QueryContext = QueryContext(store: Option<Store>, config: Config)

  /** A message a plugin asks the App to broadcast; serialization is a parameter. */
  datatype Message = Message(kind: string, data: map<string, string>)

  /** An event the plugin runner emits towards the handlers `init` subscribed. */
  datatype PluginEvent = BroadcastEmitted(message: Message) | GenerateRoutesEmitted

  /** A call the App makes into a collaborator, in the order it makes it. */
  datatype Call =
    | NewStore
    | NewQueue
    | NewPluginsRunner
    | NewCodeGenerator
    | Subscribe(event: EventName)
    | CallHook(hook: Hook)
    | PluginsRun
    | BuildSchema(queries: QueryMap)
    | BuildRoutes
    | NewRouter(router: Router)
    | Generate(target: Option<string>)

  /**
    What the collaborators answer during one call into the App: the settled
    results of the hooks, of `plugins.run()`, of `createRoutes` and of the
    two kinds of `generator.generate`.
   */
  datatype Env = Env(
    initHook: Outcome,
    pluginsRun: Outcome,
    schemaQueries: Result<seq<QueryMap>>,
    routerData: RouterData,
    generate: Outcome,
    liveGenerate: Outcome,
    afterBootstrap: Outcome)

  /** JavaScript truthiness of an optional string: `undefined` and `''` are falsy. */
  predicate Truthy(s: Option<string>) {
    s.Some? && s.value != ""
  }
}
